=== FILE: README.md ===
# CameraPOC in Dafny

A model of the arithmetic core of CameraPOC, a small 2D camera-following demo.
In the demo a player sprite moves inside a 2000x2000 world. A camera recentres
an 800x600 viewport on the player every frame. Sprites are culled in screen
space before drawing, and a health bar is drawn as a fixed overlay.

The model is functional. Camera and frame state are immutable datatypes, and
each operation is a pure function over `real` (for the source's `float`) and
`int`. Every `static_cast<int>` is written as `Numeric.Trunc`, which truncates
toward zero. So is the implicit float-to-int conversion of the viewport size
in `getViewRect`.

Modules:

- `Numeric` — truncation toward zero.
- `Camera` (`CameraPOC/Camera.cpp`) — the camera record, `New`, `Move`,
  `ViewRect`, `GetX`, `GetY`.
- `Render` (`render` in `CameraPOC/Main.cpp`) — sprites, the screen-space
  destination rectangle, the cull test, and the draw calls of a sprite list.
- `Hud` (`renderHealthBar`) — the three health-bar rectangles.
- `Frame` (the body of the main loop) — keys, displacement, health step,
  world clamp, camera target, one `Step`, a `Run` over many frames, and the
  initial sprite layout.

Two details of the code decide what the model does:

- `getViewRect` truncates the camera position toward zero; it does not round
  (CameraPOC/Camera.cpp:19-20). `Camera.ViewRect` does the same.
- The camera target is the centre of the moved position, taken before the
  clamp: `middleX`/`middleY` (CameraPOC/Main.cpp:152-153) are computed before
  the clamp (lines 156-163). `Frame.Step` does the same, and
  `Frame.StepCameraTarget` and `Frame.LeftEdgeScenario` show the consequence.

## Model

| member | source | states |
|---|---|---|
| Numeric.Trunc | CameraPOC/Camera.cpp:19-20 | the result is the integer part of the value: within one unit of it, on the same side of zero, never farther from zero |
| Numeric.TruncIsNotFloor | CameraPOC/Main.cpp:24-25 | the cast truncates toward zero: -0.5 becomes 0, whereas flooring gives -1 |
| Camera.New | CameraPOC/Camera.cpp:3-7 | a fresh camera is at (0,0) and its viewport is the given screen size |
| Camera.NewViewRect | CameraPOC/Camera.cpp:3-24 | a fresh camera reports {0, 0, trunc(width), trunc(height)} |
| Camera.Move | CameraPOC/Camera.cpp:9-14 | after a move, position plus half the viewport equals the target on each axis, and the viewport size is unchanged |
| Camera.GetX | CameraPOC/Camera.cpp:26 | the stored x position, whose truncation toward zero is the reported view rectangle's x |
| Camera.GetY | CameraPOC/Camera.cpp:27 | the stored y position, whose truncation toward zero is the reported view rectangle's y |
| Camera.MoveForgetsPosition | CameraPOC/Camera.cpp:9-14 | the position after a move depends only on the target and the viewport, not on the previous position |
| Camera.MoveIdempotent | CameraPOC/Camera.cpp:9-14 | repeating the same move leaves the camera as the first move left it |
| Camera.MoveExample | CameraPOC/Camera.cpp:9-24 | an 800x600 camera moved to (400,300) is at (0,0) and reports {0,0,800,600} |
| Camera.ViewRect | CameraPOC/Camera.cpp:16-24 | the reported corner is the position truncated toward zero, and the reported size is the viewport size truncated |
| Camera.ViewRectSizeIgnoresPosition | CameraPOC/Camera.cpp:21-22 | two cameras with the same viewport report the same width and height, whatever their positions |
| Camera.ViewRectMatchesAccessors | CameraPOC/Camera.cpp:16-27 | the reported corner is the truncation of `getX`/`getY`, and for a negative position it is not below the floor |
| Camera.MovedViewRectNearTarget | CameraPOC/Camera.cpp:9-24 | after a move with any non-negative viewport, the reported rectangle's centre is within (-1.5, 1) of the target on each axis: less than one unit from truncating the corner, at most half a unit from truncating the size |
| Camera.MovedViewRectCentred | CameraPOC/Camera.cpp:9-24 | after a move, the reported rectangle's centre is less than one unit from the target on each axis, for an integral viewport |
| Render.ScreenRect | CameraPOC/Main.cpp:23-27 | the destination rectangle is the sprite position minus the camera position, truncated toward zero; width and height are copied from the sprite |
| Render.ScreenRectShiftInvariant | CameraPOC/Main.cpp:24-25 | moving sprite and camera by the same offset leaves the destination rectangle unchanged |
| Render.Culled | CameraPOC/Main.cpp:31-33 | for a rectangle and screen of non-negative size, the four strict comparisons cull exactly the rectangles whose closed area shares no point with the closed screen [0,view.w]x[0,view.h]; touching counts as meeting |
| Render.Drawn | CameraPOC/Main.cpp:22-36 | a sprite of non-negative size seen through a camera with a non-negative viewport is drawn exactly when its screen rectangle meets the closed screen |
| Render.ContainedIsDrawn | CameraPOC/Main.cpp:30-36 | a destination rectangle inside [0,view.w]x[0,view.h] is always drawn |
| Render.TouchingEdgesIsDrawn | CameraPOC/Main.cpp:31-33 | the comparisons are strict: a rectangle that only touches the left or right edge is drawn, and one more pixel outward culls it |
| Render.ScreenSpaceExamples | CameraPOC/Main.cpp:22-36 | the cull is in screen space: a sprite at world (1100,1100) is drawn with the camera at (1000,1000), and one at world (2000,2000) is skipped with the camera at the origin |
| Render.TruncationKeepsSprite | CameraPOC/Main.cpp:24-32 | a 64-wide sprite at screen x = -64.5 is drawn because the cast truncates to -64, where flooring would cull it |
| Render.DrawCalls | CameraPOC/Main.cpp:169-173 | at most one draw call per sprite, every call passes the cull, and when every sprite is drawn there is one call per sprite |
| Render.DrawnSpriteIsDrawnCall | CameraPOC/Main.cpp:169-173 | every sprite that passes the cull has its destination rectangle among the draw calls |
| Render.DrawCallIsDrawnSprite | CameraPOC/Main.cpp:169-173 | every draw call is the destination rectangle of some sprite that passes the cull |
| Render.DrawCallsAppend | CameraPOC/Main.cpp:169-173 | rendering one more sprite after a list adds its draw call, if any, at the end |
| Hud.FillWidth | CameraPOC/Main.cpp:59 | the fill width is the integer part of twice the health, and lies in [0,200] for health in [0,100] |
| Hud.Bar | CameraPOC/Main.cpp:40-61 | the background is at fixed screen position (590,570) with size 200x20, the outline surrounds it by 2 pixels, and the fill starts at the same corner, is `FillWidth(health)` wide and fits inside the background |
| Hud.FillWidthMonotone | CameraPOC/Main.cpp:59 | more health never gives a shorter fill |
| Hud.FillWidthEnds | CameraPOC/Main.cpp:59 | health 0 gives no fill and health 100 fills the full 200 pixels |
| Hud.FillWidthIntegral | CameraPOC/Main.cpp:59 | for whole-number health the fill is exactly two pixels per point |
| Hud.BarOnScreen | CameraPOC/Main.cpp:41-50 | the whole bar, outline included, lies on the 800x600 screen |
| Frame.AxisMove | CameraPOC/Main.cpp:126-131 | on one axis, the negative key alone gives -step, the positive key alone gives +step, and both or neither give 0 |
| Frame.Displacement | CameraPOC/Main.cpp:123-137 | each held direction contributes plus or minus speed*deltaTime on its axis, and opposite directions held together cancel to 0 |
| Frame.ArrowsAreWasd | CameraPOC/Main.cpp:126-137 | the displacement depends only on whether an arrow key or its letter is held, not on which one |
| Frame.HealthStep | CameraPOC/Main.cpp:138-145 | health in [0,100] stays in [0,100] and moves by at most 2; with neither key held it is unchanged; Q alone subtracts 2, or gives 0 below 2; E alone adds 2, or gives 100 above 98; both together apply Q then E, giving 2 below 2 and the unchanged health otherwise |
| Frame.HealthBothKeys | CameraPOC/Main.cpp:138-145 | Q is applied before E: holding both keys at 0 or at 1 gives 2, and at 100 gives 100 |
| Frame.HealthStepKeepsEven | CameraPOC/Main.cpp:138-145 | a health value that is an even whole number in [0,100] stays one |
| Frame.ClampAxis | CameraPOC/Main.cpp:156-163 | the far edge never passes the world bound; when the sprite fits, the near edge is not below 0; an in-bounds position is left unchanged |
| Frame.ClampAxisIdempotent | CameraPOC/Main.cpp:156-163 | clamping an already clamped coordinate changes nothing |
| Frame.ClampToWorld | CameraPOC/Main.cpp:155-163 | the four tests in source order (low x, low y, high x, high y) equal the independent per-axis clamp |
| Frame.ClampToWorldBounds | CameraPOC/Main.cpp:155-163 | a player no larger than the world ends inside it, a player already inside is untouched, and the clamp is idempotent |
| Frame.Moved | CameraPOC/Main.cpp:147-151 | moving keeps the player size and adds the displacement: left (up) alone subtracts speed*deltaTime from x (y), right (down) alone adds it, no net direction leaves the coordinate unchanged; each shift is at most speed*|deltaTime| |
| Frame.Centre | CameraPOC/Main.cpp:152-153 | the computed middle point is equally far from both vertical edges and from both horizontal edges of the sprite |
| Frame.Step | CameraPOC/Main.cpp:113-165 | a frame keeps the player size and the viewport size, and leaves a player that fits the world inside the world |
| Frame.StepCameraTarget | CameraPOC/Main.cpp:147-165 | the camera is centred on the centre of the moved position before the clamp, which differs from the clamped player's centre whenever the clamp fired |
| Frame.HealthIgnoresTime | CameraPOC/Main.cpp:115-145 | a frame applies the health step of 2 whatever deltaTime is: Q alone subtracts 2 from health of at least 2, E alone adds 2 to health of at most 98, neither key leaves health unchanged, and two frame times give the same health |
| Frame.Initial | CameraPOC/Main.cpp:86-108 | the start state has health 100 and a 64x64 player at (400,300) inside the world, an 800x600 viewport, and satisfies the frame invariant |
| Frame.StepPreservesInv | CameraPOC/Main.cpp:123-165 | one frame keeps the player inside the world, the viewport at 800x600 and health an even whole number in [0,100] |
| Frame.Run | CameraPOC/Main.cpp:113-178 | any number of frames keep the player size and the viewport size, and after at least one frame a player that fits the world is inside it |
| Frame.RunPreservesInv | CameraPOC/Main.cpp:113-178 | any number of frames, with any keys and frame times, keep that invariant |
| Frame.ReachableBounds | CameraPOC/Main.cpp:108-163 | in every state the loop reaches, health is in [0,100] and the player is inside the world |
| Frame.UnclampedPlayerCentred | CameraPOC/Main.cpp:147-173 | when a frame's move stays inside the world, the player is drawn at {368,268,64,64}, the middle of the screen |
| Frame.LeftEdgeScenario | CameraPOC/Main.cpp:147-165 | a player at x = 0 holding left for 0.1 s stays at x = 0, while the camera is centred on x = 2 |
| Frame.InitialSprites | CameraPOC/Main.cpp:94-103 | the loop builds 20 sprites, sprite i 64x64 at (100*i, 50*i), which is exactly `InitialLayout()` |
| Frame.FrameDraws | CameraPOC/Main.cpp:169-173 | a frame issues at most one draw call per background sprite plus one for the player |
| Frame.PlayerDrawnLast | CameraPOC/Main.cpp:169-173 | when the player passes the cull, its rectangle is the last draw call, after all background calls; otherwise the calls are the background ones |
| Frame.HudTracksHealth | CameraPOC/Main.cpp:138-175 | in every reachable state the health-bar fill is exactly twice the health, a multiple of 4 in [0,200] |
| Frame.FirstIdleFrame | CameraPOC/Main.cpp:94-173 | after a first frame with no key held, the camera is at (32,32), and of `InitialLayout()` exactly sprites 0 to 8 are drawn |

## Left out

- SDL calls (initialisation, window, renderer, texture loading, `SDL_RenderCopy`, `SDL_RenderFillRect`, present, teardown) are calls into a foreign library. A draw call is modelled only by its destination rectangle.
- The start-up failure path (`IMG_Init` failing, exit code 1) is library plumbing with no arithmetic, so it is not modelled.
- Event polling and the quit flag are not modelled. `Frame.Run` takes the frames' inputs as a sequence instead.
- `SDL_GetTicks` and the computation of `deltaTime` from it are left out. `deltaTime` is an input of `Frame.Step`.
- Draw colours are presentation only.
- IEEE-754 single-precision rounding is not modelled: every `float` is a `real`. For example, `200 * (h / 100.0f)` is taken to be exact, so `Hud.FillWidthIntegral` holds for the real-valued model only.
- Frame.UnclampedPlayerCentred: holds for the real-valued model only. In single precision `p - ((p + 32) - 400)` can round to just below 368, which truncates to 367, so the float program can draw the player one pixel off centre.
- Overflow is not modelled. A `static_cast<int>` of an out-of-range float, and `int` overflow in `destRect.x + destRect.w`, are undefined or wrap in the source. Here integers are unbounded.
- The sprite's texture handle is not modelled. Only position and size take part in the arithmetic.
- `CameraPOC/Camera.h` is not part of this model. It holds only declarations. Its `update`, `follow` and `speed` are declared but never defined or used.
- `GetX`/`GetY` and `getViewRect` are const in the source. In this functional model they are pure functions of the camera value, so "state unchanged" holds by construction and has no lemma of its own.
- Camera.MovedViewRectCentred: stated only for a viewport of integral, non-negative size (the demo's 800x600), because truncating a fractional viewport size moves the reported centre by up to half a unit more. `Camera.MovedViewRectNearTarget` states the general bound (-1.5, 1) for any non-negative viewport.

- Render.Culled: the intersection reading is stated only for non-negative sizes, because a negative width or height describes no rectangle; every sprite in the demo is 64x64 and the screen is 800x600.
- Render.Drawn: stated only for a sprite of non-negative size and a non-negative viewport, for the same reason.

=== FILE: camera.dfy ===
/**
 The camera of the demo: a world-space position and a viewport size fixed at
 construction. `Move` recentres the viewport on a target point; `ViewRect`
 reports the visible rectangle as an integer rectangle.
 */
module Camera {
  import opened Numeric

  /** An integer rectangle: a top-left corner and a width and height. */
  datatype Rect = Rect(x: int, y: int, w: int, h: int)

  /** Camera state; floating fields are modelled as reals. */
  datatype Camera = Camera(x: real, y: real, viewportWidth: real, viewportHeight: real)

  /** A fresh camera sits at the world origin with a viewport the size of the screen. */
  function New(screenWidth: real, screenHeight: real): (c: Camera)
    ensures c.x == 0.0 && c.y == 0.0
    ensures c.viewportWidth == screenWidth && c.viewportHeight == screenHeight
  {
    Camera(0.0, 0.0, screenWidth, screenHeight)
  }

  /** Recentres the viewport on (targetX, targetY); the viewport size is kept. */
  function Move(c: Camera, targetX: real, targetY: real): (r: Camera)
    ensures r.viewportWidth == c.viewportWidth && r.viewportHeight == c.viewportHeight
    ensures r.x + r.viewportWidth / 2.0 == targetX
    ensures r.y + r.viewportHeight / 2.0 == targetY
  {
    c.(x := targetX - c.viewportWidth / 2.0, y := targetY - c.viewportHeight / 2.0)
  }

  /** The stored position; the reported view rectangle's corner is its truncation. */
  function GetX(c: Camera): (r: real)
    ensures Trunc(r) == ViewRect(c).x
  {
    c.x
  }

  function GetY(c: Camera): (r: real)
    ensures Trunc(r) == ViewRect(c).y
  {
    c.y
  }

  /** The visible rectangle: the position and the viewport size, each truncated toward zero. */
  function ViewRect(c: Camera): (r: Rect)
    ensures 0.0 <= c.x ==> r.x as real <= c.x < r.x as real + 1.0
    ensures c.x < 0.0 ==> r.x as real - 1.0 < c.x <= r.x as real
    ensures 0.0 <= c.y ==> r.y as real <= c.y < r.y as real + 1.0
    ensures c.y < 0.0 ==> r.y as real - 1.0 < c.y <= r.y as real
    ensures 0.0 <= c.viewportWidth ==> 0 <= r.w && r.w as real <= c.viewportWidth < r.w as real + 1.0
    ensures 0.0 <= c.viewportHeight ==> 0 <= r.h && r.h as real <= c.viewportHeight < r.h as real + 1.0
  {
    Rect(Trunc(c.x), Trunc(c.y), Trunc(c.viewportWidth), Trunc(c.viewportHeight))
  }

  /** A fresh camera reports the origin and the screen size. */
  lemma NewViewRect(screenWidth: real, screenHeight: real)
    ensures ViewRect(New(screenWidth, screenHeight))
         == Rect(0, 0, Trunc(screenWidth), Trunc(screenHeight))
  {
  }

  /** Where the camera ends up after a move depends only on the target, not on where it was. */
  lemma MoveForgetsPosition(c: Camera, d: Camera, targetX: real, targetY: real)
    requires c.viewportWidth == d.viewportWidth && c.viewportHeight == d.viewportHeight
    ensures Move(c, targetX, targetY) == Move(d, targetX, targetY)
  {
  }

  /** Repeating a move changes nothing. */
  lemma MoveIdempotent(c: Camera, targetX: real, targetY: real)
    ensures Move(Move(c, targetX, targetY), targetX, targetY) == Move(c, targetX, targetY)
  {
    MoveForgetsPosition(Move(c, targetX, targetY), c, targetX, targetY);
  }

  /** The reported size is the truncated viewport size whatever the position. */
  lemma ViewRectSizeIgnoresPosition(c: Camera, d: Camera)
    requires c.viewportWidth == d.viewportWidth && c.viewportHeight == d.viewportHeight
    ensures ViewRect(c).w == ViewRect(d).w == Trunc(c.viewportWidth)
    ensures ViewRect(c).h == ViewRect(d).h == Trunc(c.viewportHeight)
  {
  }

  /** The reported corner agrees with the accessors, truncated toward zero (not floored). */
  lemma ViewRectMatchesAccessors(c: Camera)
    ensures ViewRect(c).x == Trunc(GetX(c)) && ViewRect(c).y == Trunc(GetY(c))
    ensures GetX(c) < 0.0 ==> ViewRect(c).x >= GetX(c).Floor
  {
  }

  /**
   After a move the reported rectangle is centred on the target up to the
   truncation of its corner: less than one unit off per axis, for a viewport
   of integral size.
   */
  lemma MovedViewRectCentred(c: Camera, targetX: real, targetY: real)
    requires c.viewportWidth == c.viewportWidth.Floor as real && 0.0 <= c.viewportWidth
    requires c.viewportHeight == c.viewportHeight.Floor as real && 0.0 <= c.viewportHeight
    ensures var v := ViewRect(Move(c, targetX, targetY));
            -1.0 < v.x as real + v.w as real / 2.0 - targetX < 1.0
            && -1.0 < v.y as real + v.h as real / 2.0 - targetY < 1.0
  {
    TruncOfInt(c.viewportWidth.Floor);
    TruncOfInt(c.viewportHeight.Floor);
  }

  /**
   For any non-negative viewport, integral or not, the reported centre stays
   near the target: the corner's truncation moves it by less than one unit,
   and halving the truncated size by at most half a unit more, toward the
   origin side.
   */
  lemma MovedViewRectNearTarget(c: Camera, targetX: real, targetY: real)
    requires 0.0 <= c.viewportWidth && 0.0 <= c.viewportHeight
    ensures var v := ViewRect(Move(c, targetX, targetY));
            -1.5 < v.x as real + v.w as real / 2.0 - targetX < 1.0
            && -1.5 < v.y as real + v.h as real / 2.0 - targetY < 1.0
  {
  }

  /** A 800x600 camera moved to (400, 300) shows the rectangle {0, 0, 800, 600}. */
  lemma MoveExample()
    ensures Move(New(800.0, 600.0), 400.0, 300.0) == Camera(0.0, 0.0, 800.0, 600.0)
    ensures ViewRect(Move(New(800.0, 600.0), 400.0, 300.0)) == Rect(0, 0, 800, 600)
  {
    TruncOfInt(800);
    TruncOfInt(600);
    TruncOfInt(0);
  }
}

=== FILE: frame.dfy ===
/**
 One iteration of the demo's main loop, without the window: the held keys
 and the elapsed time move the player, the player is kept inside the world,
 the camera is recentred, and health is stepped. The frame's output is the
 list of draw calls and the health bar.
 */
module Frame {
  import opened Numeric
  import opened Camera
  import opened Render
  import opened Hud

  const WorldWidth: real := 2000.0
  const WorldHeight: real := 2000.0
  const ScreenWidth: real := 800.0
  const ScreenHeight: real := 600.0
  /** Player speed in world units per second. */
  const Speed: real := 300.0
  /** Health change per frame while Q or E is held; not scaled by the elapsed time. */
  const HealthStepSize: real := 2.0
  const MaxHealth: real := 100.0

  /** The keyboard state the loop reads: arrow keys, their WASD equivalents, Q and E. */
  datatype Keys = Keys(left: bool, right: bool, up: bool, down: bool,
                       a: bool, d: bool, w: bool, s: bool,
                       q: bool, e: bool)

  /** Input of one frame: the held keys and the elapsed time in seconds. */
  datatype Input = Input(keys: Keys, deltaTime: real)

  /** Everything the loop carries from one frame to the next. */
  datatype FrameState = FrameState(player: Sprite, camera: Camera, health: real)

  const NoKeys: Keys := Keys(false, false, false, false, false, false, false, false, false, false)

  predicate HeldLeft(k: Keys) { k.left || k.a }
  predicate HeldRight(k: Keys) { k.right || k.d }
  predicate HeldUp(k: Keys) { k.up || k.w }
  predicate HeldDown(k: Keys) { k.down || k.s }

  /** Movement along one axis: start at zero, subtract a step if the negative key is held, then add one if the positive key is. */
  function AxisMove(negative: bool, positive: bool, step: real): (m: real)
    ensures negative && !positive ==> m == -step
    ensures positive && !negative ==> m == step
    ensures negative == positive ==> m == 0.0
  {
    var m := 0.0;
    var m := if negative then m - step else m;
    if positive then m + step else m
  }

  /**
   The player's displacement for one frame, as (moveX, moveY): each held
   direction contributes its signed step of speed times elapsed time, and
   opposite directions cancel.
   */
  function Displacement(k: Keys, deltaTime: real): (d: (real, real))
    ensures HeldLeft(k) && !HeldRight(k) ==> d.0 == -(Speed * deltaTime)
    ensures HeldRight(k) && !HeldLeft(k) ==> d.0 == Speed * deltaTime
    ensures HeldLeft(k) == HeldRight(k) ==> d.0 == 0.0
    ensures HeldUp(k) && !HeldDown(k) ==> d.1 == -(Speed * deltaTime)
    ensures HeldDown(k) && !HeldUp(k) ==> d.1 == Speed * deltaTime
    ensures HeldUp(k) == HeldDown(k) ==> d.1 == 0.0
  {
    (AxisMove(HeldLeft(k), HeldRight(k), Speed * deltaTime),
     AxisMove(HeldUp(k), HeldDown(k), Speed * deltaTime))
  }

  /** An arrow key and its letter are interchangeable: holding either, or both, moves the same. */
  lemma ArrowsAreWasd(k: Keys, deltaTime: real)
    ensures Displacement(k, deltaTime)
         == Displacement(Keys(false, false, false, false,
                              k.left || k.a, k.right || k.d, k.up || k.w, k.down || k.s,
                              k.q, k.e), deltaTime)
  {
  }

  /**
   Health after one frame: Q takes two points and clamps at zero, then E adds
   two and clamps at the maximum.
   */
  function HealthStep(health: real, q: bool, e: bool): (r: real)
    ensures 0.0 <= health <= MaxHealth ==> 0.0 <= r <= MaxHealth
    ensures 0.0 <= health <= MaxHealth ==> -HealthStepSize <= r - health <= HealthStepSize
    ensures !q && !e ==> r == health
    ensures 0.0 <= health <= MaxHealth && q && !e && HealthStepSize <= health ==> r == health - HealthStepSize
    ensures 0.0 <= health <= MaxHealth && q && !e && health < HealthStepSize ==> r == 0.0
    ensures 0.0 <= health <= MaxHealth && e && !q && health <= MaxHealth - HealthStepSize ==> r == health + HealthStepSize
    ensures 0.0 <= health <= MaxHealth && e && !q && MaxHealth - HealthStepSize < health ==> r == MaxHealth
    ensures 0.0 <= health <= MaxHealth && q && e ==> r == (if health < HealthStepSize then HealthStepSize else health)
  {
    var afterQ := if q then (if health - HealthStepSize < 0.0 then 0.0 else health - HealthStepSize) else health;
    if e then (if afterQ + HealthStepSize > MaxHealth then MaxHealth else afterQ + HealthStepSize) else afterQ
  }

  /** The two keys are applied in order, not netted: both held at zero gives two, both held at full stays full. */
  lemma HealthBothKeys()
    ensures HealthStep(0.0, true, true) == 2.0
    ensures HealthStep(1.0, true, true) == 2.0
    ensures HealthStep(MaxHealth, true, true) == MaxHealth
  {
  }

  /** Health is an even whole number of points in [0, 100]. */
  predicate EvenHealth(health: real)
  {
    && 0.0 <= health <= MaxHealth
    && health == health.Floor as real
    && health.Floor % 2 == 0
  }

  lemma HealthStepKeepsEven(health: real, q: bool, e: bool)
    requires EvenHealth(health)
    ensures EvenHealth(HealthStep(health, q, e))
  {
    var n := health.Floor;
    var afterQ := if q then (if n - 2 < 0 then 0 else n - 2) else n;
    var afterE := if e then (if afterQ + 2 > 100 then 100 else afterQ + 2) else afterQ;
    assert HealthStep(health, q, e) == afterE as real;
    assert (afterE as real).Floor == afterE;
  }

  /** Clamps one coordinate so that [p, p + size] lies in [0, world]: low bound first, then high bound. */
  function ClampAxis(p: real, size: int, world: real): (r: real)
    ensures r + size as real <= world
    ensures size as real <= world ==> 0.0 <= r
    ensures 0.0 <= p && p + size as real <= world ==> r == p
    ensures size as real <= world && p < 0.0 ==> r == 0.0
    ensures p + size as real > world ==> r == world - size as real
  {
    var p := if p < 0.0 then 0.0 else p;
    if p + size as real > world then world - size as real else p
  }

  /** Clamping twice is clamping once. */
  lemma ClampAxisIdempotent(p: real, size: int, world: real)
    requires size as real <= world
    ensures ClampAxis(ClampAxis(p, size, world), size, world) == ClampAxis(p, size, world)
  {
  }

  /** The world clamp exactly as the loop performs it: low x, low y, high x, high y. */
  function ClampToWorld(p: Sprite): (r: Sprite)
    ensures r.w == p.w && r.h == p.h
    ensures r.x == ClampAxis(p.x, p.w, WorldWidth) && r.y == ClampAxis(p.y, p.h, WorldHeight)
  {
    var p := if p.x < 0.0 then p.(x := 0.0) else p;
    var p := if p.y < 0.0 then p.(y := 0.0) else p;
    var p := if p.x + p.w as real > WorldWidth then p.(x := WorldWidth - p.w as real) else p;
    if p.y + p.h as real > WorldHeight then p.(y := WorldHeight - p.h as real) else p
  }

  /** The player's whole rectangle is inside the world. */
  predicate InWorld(p: Sprite)
  {
    0.0 <= p.x && p.x + p.w as real <= WorldWidth && 0.0 <= p.y && p.y + p.h as real <= WorldHeight
  }

  /** After the clamp a player no larger than the world is inside it; one already inside is untouched. */
  lemma ClampToWorldBounds(p: Sprite)
    requires p.w as real <= WorldWidth && p.h as real <= WorldHeight
    ensures InWorld(ClampToWorld(p))
    ensures InWorld(p) ==> ClampToWorld(p) == p
    ensures ClampToWorld(ClampToWorld(p)) == ClampToWorld(p)
  {
    ClampAxisIdempotent(p.x, p.w, WorldWidth);
    ClampAxisIdempotent(p.y, p.h, WorldHeight);
  }

  /** The player moved by this frame's displacement, before the clamp. */
  function Moved(st: FrameState, k: Keys, deltaTime: real): (p: Sprite)
    ensures p.w == st.player.w && p.h == st.player.h
    ensures -Speed * Abs(deltaTime) <= p.x - st.player.x <= Speed * Abs(deltaTime)
    ensures -Speed * Abs(deltaTime) <= p.y - st.player.y <= Speed * Abs(deltaTime)
    ensures HeldLeft(k) && !HeldRight(k) ==> p.x == st.player.x - Speed * deltaTime
    ensures HeldRight(k) && !HeldLeft(k) ==> p.x == st.player.x + Speed * deltaTime
    ensures HeldLeft(k) == HeldRight(k) ==> p.x == st.player.x
    ensures HeldUp(k) && !HeldDown(k) ==> p.y == st.player.y - Speed * deltaTime
    ensures HeldDown(k) && !HeldUp(k) ==> p.y == st.player.y + Speed * deltaTime
    ensures HeldUp(k) == HeldDown(k) ==> p.y == st.player.y
    ensures HeldLeft(k) == HeldRight(k) && HeldUp(k) == HeldDown(k) ==> p == st.player
  {
    var (moveX, moveY) := Displacement(k, deltaTime);
    st.player.(x := st.player.x + moveX, y := st.player.y + moveY)
  }

  function Abs(r: real): real { if r < 0.0 then -r else r }

  /** The centre of a sprite's rectangle: as far from the left edge as from the right, and from the top as from the bottom. */
  function Centre(p: Sprite): (m: (real, real))
    ensures m.0 - p.x == (p.x + p.w as real) - m.0
    ensures m.1 - p.y == (p.y + p.h as real) - m.1
  {
    (p.x + p.w as real / 2.0, p.y + p.h as real / 2.0)
  }

  /**
   One frame: health, then movement; the camera target is the centre of the
   moved player taken before the clamp is applied.
   */
  function Step(st: FrameState, k: Keys, deltaTime: real): (r: FrameState)
    ensures r.player.w == st.player.w && r.player.h == st.player.h
    ensures r.camera.viewportWidth == st.camera.viewportWidth
    ensures r.camera.viewportHeight == st.camera.viewportHeight
    ensures st.player.w as real <= WorldWidth && st.player.h as real <= WorldHeight ==> InWorld(r.player)
  {
    var health := HealthStep(st.health, k.q, k.e);
    var moved := Moved(st, k, deltaTime);
    var (middleX, middleY) := Centre(moved);
    var player := ClampToWorld(moved);
    FrameState(player, Move(st.camera, middleX, middleY), health)
  }

  /** The camera is centred on the unclamped moved player, so it can follow a point the player never reaches. */
  lemma StepCameraTarget(st: FrameState, k: Keys, deltaTime: real)
    ensures var r := Step(st, k, deltaTime);
            && r.camera.x + r.camera.viewportWidth / 2.0 == Centre(Moved(st, k, deltaTime)).0
            && r.camera.y + r.camera.viewportHeight / 2.0 == Centre(Moved(st, k, deltaTime)).1
    ensures !InWorld(Moved(st, k, deltaTime)) && st.player.w as real <= WorldWidth && st.player.h as real <= WorldHeight
            ==> Centre(Step(st, k, deltaTime).player) != Centre(Moved(st, k, deltaTime))
  {
    var moved := Moved(st, k, deltaTime);
    if st.player.w as real <= WorldWidth && st.player.h as real <= WorldHeight {
      ClampToWorldBounds(moved);
    }
  }

  /**
   Health moves by a fixed step of two per frame whatever the elapsed time,
   unlike the player: Q alone takes two points, E alone adds two, neither
   leaves health alone, and two frame times give the same health.
   */
  lemma HealthIgnoresTime(st: FrameState, k: Keys, dt1: real, dt2: real)
    ensures Step(st, k, dt1).health == Step(st, k, dt2).health
    ensures 0.0 <= st.health <= MaxHealth && k.q && !k.e && HealthStepSize <= st.health
            ==> Step(st, k, dt1).health == st.health - HealthStepSize
    ensures 0.0 <= st.health <= MaxHealth && k.e && !k.q && st.health <= MaxHealth - HealthStepSize
            ==> Step(st, k, dt1).health == st.health + HealthStepSize
    ensures !k.q && !k.e ==> Step(st, k, dt1).health == st.health
  {
  }

  /** The state the loop starts from. */
  function Initial(): (st: FrameState)
    ensures Inv(st)
    ensures st.health == MaxHealth && st.player.x == 400.0 && st.player.y == 300.0
  {
    assert MaxHealth.Floor == 100;
    FrameState(Sprite(400.0, 300.0, 64, 64), New(ScreenWidth, ScreenHeight), MaxHealth)
  }

  /** What every frame keeps: a 64x64 player inside the world, an 800x600 viewport, even health in range. */
  predicate Inv(st: FrameState)
  {
    && st.player.w == 64 && st.player.h == 64
    && InWorld(st.player)
    && st.camera.viewportWidth == ScreenWidth && st.camera.viewportHeight == ScreenHeight
    && EvenHealth(st.health)
  }

  lemma StepPreservesInv(st: FrameState, k: Keys, deltaTime: real)
    requires Inv(st)
    ensures Inv(Step(st, k, deltaTime))
  {
    HealthStepKeepsEven(st.health, k.q, k.e);
  }

  /** The state after running the loop over a sequence of frame inputs. */
  function Run(st: FrameState, inputs: seq<Input>): (r: FrameState)
    ensures r.player.w == st.player.w && r.player.h == st.player.h
    ensures r.camera.viewportWidth == st.camera.viewportWidth
    ensures r.camera.viewportHeight == st.camera.viewportHeight
    ensures |inputs| > 0 && st.player.w as real <= WorldWidth && st.player.h as real <= WorldHeight
            ==> InWorld(r.player)
    decreases |inputs|
  {
    if |inputs| == 0 then st
    else Run(Step(st, inputs[0].keys, inputs[0].deltaTime), inputs[1..])
  }

  /** Whatever keys are held and however long the frames take, the invariant holds after every frame. */
  lemma {:induction false} RunPreservesInv(st: FrameState, inputs: seq<Input>)
    requires Inv(st)
    ensures Inv(Run(st, inputs))
    decreases |inputs|
  {
    if |inputs| > 0 {
      StepPreservesInv(st, inputs[0].keys, inputs[0].deltaTime);
      RunPreservesInv(Step(st, inputs[0].keys, inputs[0].deltaTime), inputs[1..]);
    }
  }

  /** In every reachable state health is within [0, 100] and the player is within the world. */
  lemma ReachableBounds(inputs: seq<Input>)
    ensures var st := Run(Initial(), inputs);
            0.0 <= st.health <= MaxHealth && InWorld(st.player)
  {
    RunPreservesInv(Initial(), inputs);
  }

  /**
   When a frame's move stays inside the world the player is drawn at the
   centre of the screen, at {368, 268, 64, 64}.
   */
  lemma UnclampedPlayerCentred(st: FrameState, k: Keys, deltaTime: real)
    requires Inv(st)
    requires InWorld(Moved(st, k, deltaTime))
    ensures ScreenRect(Step(st, k, deltaTime).player, Step(st, k, deltaTime).camera) == Rect(368, 268, 64, 64)
    ensures Drawn(Step(st, k, deltaTime).player, Step(st, k, deltaTime).camera)
  {
    var moved := Moved(st, k, deltaTime);
    ClampToWorldBounds(moved);
    var r := Step(st, k, deltaTime);
    assert r.player == moved;
    assert r.player.x - r.camera.x == 368.0;
    assert r.player.y - r.camera.y == 268.0;
    TruncOfInt(368);
    TruncOfInt(268);
    TruncOfInt(800);
    TruncOfInt(600);
  }

  /**
   A player at the world's left edge holding left for a tenth of a second
   stays at x = 0, while the camera is centred on x = 2, the centre of the
   position the clamp undid.
   */
  lemma LeftEdgeScenario()
    ensures var st := FrameState(Sprite(0.0, 300.0, 64, 64), Initial().camera, MaxHealth);
            var r := Step(st, NoKeys.(left := true), 0.1);
            && r.player.x == 0.0 && r.player.y == 300.0
            && r.camera.x + r.camera.viewportWidth / 2.0 == 2.0
  {
  }

  /** The sprite at position `i` of the initial layout: a diagonal line 100 units right and 50 down per step. */
  function LayoutSprite(i: int): Sprite
  {
    Sprite(i as real * 100.0, i as real * 50.0, 64, 64)
  }

  /** The twenty background sprites, as a sequence. */
  function InitialLayout(): seq<Sprite>
  {
    seq(20, i => LayoutSprite(i))
  }

  /** Builds the twenty background sprites the loop renders, one push per iteration. */
  method InitialSprites() returns (sprites: seq<Sprite>)
    ensures |sprites| == 20
    ensures forall i :: 0 <= i < |sprites| ==> sprites[i] == LayoutSprite(i)
    ensures sprites == InitialLayout()
  {
    sprites := [];
    var i := 0;
    while i < 20
      invariant 0 <= i <= 20
      invariant |sprites| == i
      invariant forall j :: 0 <= j < i ==> sprites[j] == LayoutSprite(j)
    {
      sprites := sprites + [Sprite(i as real * 100.0, i as real * 50.0, 64, 64)];
      i := i + 1;
    }
  }

  /** The draw calls of a frame: the background sprites in order, then the player. */
  function FrameDraws(st: FrameState, sprites: seq<Sprite>): (calls: seq<Rect>)
    ensures |calls| <= |sprites| + 1
  {
    DrawCalls(sprites + [st.player], st.camera)
  }

  /** The player is drawn last, over the background sprites, whenever it is not culled. */
  lemma PlayerDrawnLast(st: FrameState, sprites: seq<Sprite>)
    ensures Drawn(st.player, st.camera) ==>
              && |FrameDraws(st, sprites)| == |DrawCalls(sprites, st.camera)| + 1
              && FrameDraws(st, sprites)[|FrameDraws(st, sprites)| - 1] == ScreenRect(st.player, st.camera)
    ensures !Drawn(st.player, st.camera) ==> FrameDraws(st, sprites) == DrawCalls(sprites, st.camera)
  {
    DrawCallsAppend(sprites, st.player, st.camera);
  }

  /** In every reachable state the health bar's fill is exactly two pixels per health point. */
  lemma HudTracksHealth(inputs: seq<Input>)
    ensures var st := Run(Initial(), inputs);
            var b := Bar(st.health);
            && b.fill.w == 2 * st.health.Floor
            && 0 <= b.fill.w <= BarWidth
            && b.fill.w % 4 == 0
  {
    RunPreservesInv(Initial(), inputs);
    var st := Run(Initial(), inputs);
    FillWidthIntegral(st.health.Floor);
  }

  /**
   After the first frame with no key held, the camera sits at (32, 32) and,
   of the initial layout, exactly the sprites 0 to 8 are drawn.
   */
  lemma FirstIdleFrame(deltaTime: real)
    ensures Step(Initial(), NoKeys, deltaTime).camera == Camera(32.0, 32.0, ScreenWidth, ScreenHeight)
    ensures forall i :: 0 <= i < |InitialLayout()| ==>
              (Drawn(InitialLayout()[i], Step(Initial(), NoKeys, deltaTime).camera) <==> i <= 8)
  {
    var c := Step(Initial(), NoKeys, deltaTime).camera;
    assert c == Camera(32.0, 32.0, ScreenWidth, ScreenHeight);
    TruncOfInt(800);
    TruncOfInt(600);
    forall i | 0 <= i < 20
      ensures Drawn(LayoutSprite(i), c) <==> i <= 8
    {
      assert LayoutSprite(i).x - c.x == (100 * i - 32) as real;
      assert LayoutSprite(i).y - c.y == (50 * i - 32) as real;
      TruncOfInt(100 * i - 32);
      TruncOfInt(50 * i - 32);
    }
  }
}

=== FILE: hud.dfy ===
/**
 Geometry of the health bar drawn over the screen: an outline, a background
 the full width of the bar, and a fill whose width is the health percentage
 of the bar width. Only the rectangles are modelled, not their colours.
 */
module Hud {
  import opened Numeric
  import opened Camera

  const BarWidth: int := 200
  const BarHeight: int := 20
  const Padding: int := 10

  /** The bar's corner is placed against the bottom-right corner of an 800x600 screen. */
  const BarX: int := 800 - BarWidth - Padding
  const BarY: int := 600 - BarHeight - Padding

  /** The three filled rectangles, in drawing order. */
  datatype HealthBar = HealthBar(outline: Rect, background: Rect, fill: Rect)

  /** Width of the filled part for a health percentage. */
  function FillWidth(health: real): (w: int)
    ensures 0.0 <= health <= 100.0 ==> 0 <= w <= BarWidth
    ensures 0.0 <= health ==> w as real <= 2.0 * health < w as real + 1.0
  {
    Trunc(BarWidth as real * (health / 100.0))
  }

  /**
   The health bar for a health percentage; it takes no camera or world state, so it is
   drawn at the same screen position every frame.
   */
  function Bar(health: real): (b: HealthBar)
    ensures b.background == Rect(590, 570, 200, 20)
    ensures b.outline.x == b.background.x - 2 && b.outline.y == b.background.y - 2
    ensures b.outline.x + b.outline.w == b.background.x + b.background.w + 2
    ensures b.outline.y + b.outline.h == b.background.y + b.background.h + 2
    ensures b.fill.x == b.background.x && b.fill.y == b.background.y && b.fill.h == b.background.h
    ensures b.fill.w == FillWidth(health)
    ensures 0.0 <= health <= 100.0 ==> 0 <= b.fill.w <= b.background.w
  {
    HealthBar(
      Rect(BarX - 2, BarY - 2, BarWidth + 4, BarHeight + 4),
      Rect(BarX, BarY, BarWidth, BarHeight),
      Rect(BarX, BarY, FillWidth(health), BarHeight))
  }

  /** More health never draws a shorter fill. */
  lemma FillWidthMonotone(g: real, h: real)
    requires g <= h
    ensures FillWidth(g) <= FillWidth(h)
  {
    TruncMonotone(BarWidth as real * (g / 100.0), BarWidth as real * (h / 100.0));
  }

  /** An empty bar has no fill and a full one fills the background exactly. */
  lemma FillWidthEnds()
    ensures FillWidth(0.0) == 0
    ensures FillWidth(100.0) == BarWidth
  {
    TruncOfInt(0);
    TruncOfInt(200);
  }

  /** For integral health the fill is exactly two pixels per point. */
  lemma FillWidthIntegral(n: int)
    requires 0 <= n
    ensures FillWidth(n as real) == 2 * n
  {
    assert BarWidth as real * (n as real / 100.0) == (2 * n) as real;
    TruncOfInt(2 * n);
  }

  /** The whole bar, outline included, lies on the 800x600 screen. */
  lemma BarOnScreen(health: real)
    ensures var o := Bar(health).outline;
            0 <= o.x && o.x + o.w <= 800 && 0 <= o.y && o.y + o.h <= 600
  {
  }
}

=== FILE: numeric.dfy ===
/**
 The one numeric conversion the program relies on: C++ `static_cast<int>`
 (and the implicit float-to-int conversion of an assignment) from a floating
 value, which truncates toward zero. Floating values are modelled as `real`;
 the conversion is written out here because Dafny's `.Floor` rounds down.
 */
module Numeric {

  /** Truncation toward zero: the integer part of `r`, dropping the fraction. */
  function Trunc(r: real): (t: int)
    ensures 0.0 <= r ==> 0 <= t && t as real <= r < t as real + 1.0
    ensures r < 0.0 ==> t <= 0 && t as real - 1.0 < r <= t as real
  {
    if r >= 0.0 then r.Floor else -((-r).Floor)
  }

  /** An integral value passes through the conversion unchanged. */
  lemma TruncOfInt(n: int)
    ensures Trunc(n as real) == n
  {
  }

  /** Truncation never moves a value past a larger one. */
  lemma TruncMonotone(r: real, s: real)
    requires r <= s
    ensures Trunc(r) <= Trunc(s)
  {
  }

  /** Truncation is the unique integer in the half-open unit interval toward zero. */
  lemma TruncUnique(r: real, n: int)
    requires 0.0 <= r ==> 0 <= n && n as real <= r < n as real + 1.0
    requires r < 0.0 ==> n <= 0 && n as real - 1.0 < r <= n as real
    ensures Trunc(r) == n
  {
  }

  /** For a negative fraction truncation and flooring disagree: -0.5 becomes 0, not -1. */
  lemma TruncIsNotFloor()
    ensures Trunc(-0.5) == 0
    ensures (-0.5).Floor == -1
  {
  }
}

=== FILE: render.dfy ===
/**
 Drawing a sprite relative to the camera: the sprite's world position is
 turned into a screen-space rectangle, and the draw call is skipped when that
 rectangle lies wholly outside the screen. The draw call itself is reduced to
 the rectangle it would be given.
 */
module Render {
  import opened Numeric
  import opened Camera

  /** A sprite: a world position (floating) and a size in pixels. The image it draws is not modelled. */
  datatype Sprite = Sprite(x: real, y: real, w: int, h: int)

  /** The destination rectangle of a sprite in screen space: world position minus camera position. */
  function ScreenRect(s: Sprite, c: Camera): (r: Rect)
    ensures r.w == s.w && r.h == s.h
    ensures 0.0 <= s.x - c.x ==> r.x as real <= s.x - c.x < r.x as real + 1.0
    ensures s.x - c.x < 0.0 ==> r.x as real - 1.0 < s.x - c.x <= r.x as real
    ensures 0.0 <= s.y - c.y ==> r.y as real <= s.y - c.y < r.y as real + 1.0
    ensures s.y - c.y < 0.0 ==> r.y as real - 1.0 < s.y - c.y <= r.y as real
  {
    Rect(Trunc(s.x - GetX(c)), Trunc(s.y - GetY(c)), s.w, s.h)
  }

  /** `t` lies in the closed interval [lo, lo + len]. */
  predicate InSpan(t: int, lo: int, len: int)
  {
    lo <= t <= lo + len
  }

  /** The closed rectangle `dest` shares a pixel coordinate with the closed screen [0, w] x [0, h]. */
  ghost predicate MeetsScreen(dest: Rect, view: Rect)
  {
    && (exists t :: InSpan(t, dest.x, dest.w) && InSpan(t, 0, view.w))
    && (exists t :: InSpan(t, dest.y, dest.h) && InSpan(t, 0, view.h))
  }

  lemma SpansMeet(a: int, w: int, width: int)
    ensures 0 <= w && 0 <= width ==>
              ((exists t :: InSpan(t, a, w) && InSpan(t, 0, width)) <==> (0 <= a + w && a <= width))
  {
    if 0 <= w && 0 <= width && 0 <= a + w && a <= width {
      var t := if a < 0 then 0 else a;
      assert InSpan(t, a, w) && InSpan(t, 0, width);
    }
  }

  /**
   The cull test, in screen space: a destination rectangle is skipped when it
   ends left of or above the screen, or starts right of or below it. Only the
   size of the view rectangle takes part. For non-negative sizes this is
   exactly "the closed rectangle misses the closed screen": the strict
   comparisons count touching as meeting.
   */
  predicate Culled(dest: Rect, view: Rect)
    ensures 0 <= dest.w && 0 <= dest.h && 0 <= view.w && 0 <= view.h ==>
              (Culled(dest, view) <==> !MeetsScreen(dest, view))
  {
    SpansMeet(dest.x, dest.w, view.w);
    SpansMeet(dest.y, dest.h, view.h);
    dest.x + dest.w < 0 || dest.y + dest.h < 0 || dest.x > view.w || dest.y > view.h
  }

  /**
   Whether rendering `s` through camera `c` issues a draw call: for a sprite
   of non-negative size and a non-negative viewport, exactly when its screen
   rectangle meets the screen.
   */
  predicate Drawn(s: Sprite, c: Camera)
    ensures 0 <= s.w && 0 <= s.h && 0.0 <= c.viewportWidth && 0.0 <= c.viewportHeight ==>
              (Drawn(s, c) <==> MeetsScreen(ScreenRect(s, c), ViewRect(c)))
  {
    !Culled(ScreenRect(s, c), ViewRect(c))
  }

  /** A destination rectangle wholly inside [0, w] x [0, h] is always drawn. */
  lemma ContainedIsDrawn(dest: Rect, view: Rect)
    requires 0 <= dest.x <= view.w && 0 <= dest.x + dest.w <= view.w
    requires 0 <= dest.y <= view.h && 0 <= dest.y + dest.h <= view.h
    ensures !Culled(dest, view)
  {
  }

  /** The comparisons are strict: a rectangle that only touches an edge of the screen is drawn. */
  lemma TouchingEdgesIsDrawn(dest: Rect, view: Rect)
    requires dest.x + dest.w == 0 || dest.x == view.w
    requires 0 <= dest.x + dest.w && dest.x <= view.w
    requires 0 <= dest.y + dest.h && dest.y <= view.h
    ensures !Culled(dest, view)
    ensures dest.x + dest.w == 0 ==> Culled(dest.(x := dest.x - 1), view)
    ensures dest.x == view.w ==> Culled(dest.(x := dest.x + 1), view)
  {
  }

  /** Shifting sprite and camera by the same amount leaves the destination rectangle alone. */
  lemma ScreenRectShiftInvariant(s: Sprite, c: Camera, dx: real, dy: real)
    ensures ScreenRect(s.(x := s.x + dx, y := s.y + dy), c.(x := c.x + dx, y := c.y + dy))
         == ScreenRect(s, c)
  {
    assert (s.x + dx) - (c.x + dx) == s.x - c.x;
    assert (s.y + dy) - (c.y + dy) == s.y - c.y;
  }

  /**
   The cull bounds are in screen space: with the camera at (1000, 1000) a
   sprite at world (1100, 1100) is drawn although its world coordinates exceed
   the 800x600 screen, and with the camera at the origin a sprite at world
   (2000, 2000) is skipped.
   */
  lemma ScreenSpaceExamples()
    ensures Drawn(Sprite(1100.0, 1100.0, 64, 64), Camera(1000.0, 1000.0, 800.0, 600.0))
    ensures ScreenRect(Sprite(2000.0, 2000.0, 64, 64), Camera(0.0, 0.0, 800.0, 600.0))
         == Rect(2000, 2000, 64, 64)
    ensures !Drawn(Sprite(2000.0, 2000.0, 64, 64), Camera(0.0, 0.0, 800.0, 600.0))
  {
    TruncOfInt(100);
    TruncOfInt(2000);
    TruncOfInt(800);
    TruncOfInt(600);
    TruncOfInt(1000);
  }

  /**
   Truncation toward zero keeps a sprite that flooring would cull: at screen
   x = -64.5 a 64-wide sprite truncates to -64 and its right edge lands on 0.
   */
  lemma TruncationKeepsSprite()
    ensures ScreenRect(Sprite(-64.5, 0.0, 64, 64), Camera(0.0, 0.0, 800.0, 600.0)).x == -64
    ensures Drawn(Sprite(-64.5, 0.0, 64, 64), Camera(0.0, 0.0, 800.0, 600.0))
    ensures (-64.5).Floor + 64 < 0
  {
    TruncUnique(-64.5, -64);
    TruncOfInt(0);
    TruncOfInt(800);
    TruncOfInt(600);
  }

  /**
   The destination rectangles of the draw calls issued when the sprites are
   rendered in order through camera `c`: the culled ones are dropped.
   */
  function DrawCalls(sprites: seq<Sprite>, c: Camera): (calls: seq<Rect>)
    ensures |calls| <= |sprites|
    ensures forall k :: 0 <= k < |calls| ==> !Culled(calls[k], ViewRect(c))
    ensures (forall i :: 0 <= i < |sprites| ==> Drawn(sprites[i], c)) ==> |calls| == |sprites|
  {
    if |sprites| == 0 then []
    else
      var rest := DrawCalls(sprites[1..], c);
      if Drawn(sprites[0], c) then [ScreenRect(sprites[0], c)] + rest else rest
  }

  /** Every drawn sprite's destination rectangle is among the draw calls. */
  lemma {:induction false} DrawnSpriteIsDrawnCall(sprites: seq<Sprite>, c: Camera, i: int)
    requires 0 <= i < |sprites| && Drawn(sprites[i], c)
    ensures ScreenRect(sprites[i], c) in DrawCalls(sprites, c)
    decreases |sprites|
  {
    if i > 0 {
      DrawnSpriteIsDrawnCall(sprites[1..], c, i - 1);
      assert sprites[1..][i - 1] == sprites[i];
    }
  }

  /** Every draw call comes from a drawn sprite: nothing culled and nothing invented is drawn. */
  lemma {:induction false} DrawCallIsDrawnSprite(sprites: seq<Sprite>, c: Camera, k: int)
    requires 0 <= k < |DrawCalls(sprites, c)|
    ensures exists i :: 0 <= i < |sprites| && Drawn(sprites[i], c)
                        && DrawCalls(sprites, c)[k] == ScreenRect(sprites[i], c)
    decreases |sprites|
  {
    var rest := DrawCalls(sprites[1..], c);
    if Drawn(sprites[0], c) && k == 0 {
      assert DrawCalls(sprites, c)[0] == ScreenRect(sprites[0], c);
    } else {
      var k' := if Drawn(sprites[0], c) then k - 1 else k;
      assert DrawCalls(sprites, c)[k] == rest[k'];
      DrawCallIsDrawnSprite(sprites[1..], c, k');
      var i :| 0 <= i < |sprites[1..]| && Drawn(sprites[1..][i], c) && rest[k'] == ScreenRect(sprites[1..][i], c);
      assert sprites[1..][i] == sprites[i + 1];
    }
  }

  /** Rendering one more sprite after a list appends its draw call, if any, at the end. */
  lemma {:induction false} DrawCallsAppend(sprites: seq<Sprite>, last: Sprite, c: Camera)
    ensures DrawCalls(sprites + [last], c)
         == DrawCalls(sprites, c) + (if Drawn(last, c) then [ScreenRect(last, c)] else [])
    decreases |sprites|
  {
    if |sprites| > 0 {
      assert (sprites + [last])[1..] == sprites[1..] + [last];
      DrawCallsAppend(sprites[1..], last, c);
    } else {
      assert (sprites + [last])[1..] == [];
    }
  }
}
